=== FILE: README.md ===
# Discord university-email verification bot: a Dafny model

This project models the part of the bot (`index.js`) that has state. New
guild members hold the `Activation required` role until they prove they own
a `@students.ptuk.edu.ps` address. The bot mails them a six-digit code, and a
correct code gives them the `member` role. Administrators can ban or unban a
member by Discord id or by the email on their row.

The model is one sequential state machine over an immutable `Model.State`:

- `attempts`: the in-memory `verificationCodes` map. Each entry is either `AwaitingEmail` or `AwaitingCode(code, email)`.
- `records`: the `verified_users` table as a map from `discord_id` to `(email, banned)`.
- `roles`: each user's role set.
- `present`: the guild's members.
- `defined`: the roles the guild defines. The handlers look roles up by name. Join and the code step skip a role the guild lacks. Ban refuses with `NoBannedRole` when `banned` is missing (index.js:333-334). Unban skips a missing `member` role.

Each handler is a pure function that returns the new state and a reply value. The Arabic reply texts become enum values.

| file | module | contents |
|---|---|---|
| text.dfy | `Text` | JavaScript `trim`, `endsWith`, `Number.prototype.toString` |
| model.dfy | `Model` | ids, codes, roles, attempts, rows, the state |
| verification.dfy | `Verification` | `verify_start`, the DM email and code steps, the email lookup form |
| access.dfy | `Access` | `guildMemberAdd`, `handleBan`, `handleUnban` |
| properties.dfy | `Properties` | properties relating several calls |
| events.dfy | `Events` | all handlers as events, runs of events |
| uniqueness.dfy | `Uniqueness` | the duplicate-email finding and the corrected code step |

Inputs that stand in for the outside world:

- `dmOk`: whether the DM to the user went through.
- `mailOk`: whether the mail transport accepted the message.
- `code`: the random code, typed `Model.Code` (100000 to 999999).
- `fromBot`, `inGuild`: whether the author is a bot and whether the message came from a guild channel.
- `hit`: the row the email query returns, constrained by `Access.LookupAnswers`.

Assumptions:

- `discord_id` is a unique key of `verified_users`. The table schema is not part of this model. This key is why `INSERT IGNORE` means "insert only if no row has this id".
- `email` is not a unique key of `verified_users`. With such a key, `INSERT IGNORE` would drop the second user's row, and that user would get `member` with no row. The duplicate-email finding below depends on this assumption.
- SQL `=` on emails and ids is exact string equality.
- User ids are Discord snowflakes: non-empty strings of decimal digits. So no id contains `@`.

The model follows `index.js` where a reader might expect otherwise:

- The duplicate-email test rejects every row holding the email, including the user's own row.
- A correct code from a user who is not in the guild keeps the attempt.
- `INSERT IGNORE` keeps an existing row as it is. Its email is not overwritten.
- A successful code removes `Activation required` and adds `member`. The role set is not replaced, so a `banned` role survives re-verification (`Properties.BanSurvivesVerification`).
- Banning an id with no row changes roles only. No row is created.
- Unban sends no DM.

## Model

| member | source | states |
|---|---|---|
| Text.SkipSpace | index.js:244 | the start of the trimmed text: everything before it is white space and the character at it is not |
| Text.SkipSpaceBack | index.js:287 | the end of the trimmed text: everything from it on is white space and the character before it is not |
| Text.IsJsSpace | index.js:244 | the characters `trim` strips are ECMAScript white space and line terminators; no digit, ASCII letter, `@` or `.` is among them |
| Text.Trim | index.js:244 | the trimmed text is the input's middle, unchanged, starting where the leading white space ends; everything before and after it is white space; it neither starts nor ends with white space |
| Text.TrimKeepsMiddle | index.js:244 | the input is white space, then its trim, then white space |
| Text.TrimIdempotent | index.js:287 | trimming an already trimmed text changes nothing |
| Text.Decimal | index.js:287 | a code's string form is a non-empty run of decimal digits with no leading zero; `Text.DecimalRoundTrip` reads it back |
| Text.EndsWithMeansSuffix | index.js:246 | `endsWith` holds exactly when the text is some prefix followed by the suffix |
| Text.DecimalRoundTrip | index.js:287 | reading back the decimal string of the code gives the code, so the string comparison is a comparison of codes |
| Text.DecimalInjective | index.js:287 | different codes have different decimal strings |
| Text.DecimalSixDigits | index.js:257 | every generated code prints as exactly six digits |
| Model.EmailTaken | index.js:249-255 | an email is in use exactly when the query for rows with that email returns a non-empty set; `Model.SetBannedKeepsTaken` and `Properties.ActivationTakesEmail` tie it to the writes |
| Model.SetBannedKeepsTaken | index.js:337 | a ban or unban flag update neither takes nor frees an email: the in-use query answers the same before and after |
| Model.SetBanned | index.js:337 | the flag update changes only the targeted row's flag and never adds or removes a row |
| Model.SetBannedTwice | index.js:374 | of two flag updates to one row, only the last is visible |
| Verification.Start | index.js:148-167 | on a delivered DM the user's attempt becomes `AwaitingEmail` and replaces any earlier attempt, with nothing else changed; on a blocked DM nothing changes |
| Verification.Message | index.js:236-310 | bot authors, guild-channel messages and users without an attempt get no reply and change nothing; otherwise the trimmed text goes to the step the attempt is at; "not a university email" exactly when an awaited email lacks the domain, "email in use" exactly when a row holds it, "wrong code" exactly when the trimmed text is not the code's decimal string; every rejection leaves the state unchanged |
| Verification.EmailStep | index.js:243-283 | a wrong domain or an email already on any row is rejected with no change; otherwise the attempt becomes `AwaitingCode(code, email)` if the mail was sent, or is removed if sending failed; other users and the table are untouched |
| Verification.CodeStep | index.js:286-309 | a text other than the code's decimal string, or a correct code from a user not in the guild, changes nothing; a correct code from a member removes the attempt, inserts `(email, false)` only if the user has no row, removes `Activation required` and adds `member` where the guild defines them, and leaves other roles, users and rows as they were |
| Verification.LookupEmail | index.js:187-201 | the form shows an email exactly when a row has the typed id, and then that row's email |
| Access.Join | index.js:67-95 | a banned row gives exactly `{banned}`, any other row exactly `{member}`, no row adds `Activation required` to the current roles; a role the guild lacks is skipped; nothing else changes |
| Access.LookupAnswers | index.js:317-322 | the answer to the email query: an input without `@` asks nothing; for one with `@`, a row is returned exactly when some row holds that email, and the returned id is one of those rows |
| Access.LookupHasAnswer | index.js:317-322 | every input has some answer, so no form input is turned away by the lookup |
| Access.LookupAnswerUnique | index.js:321 | while emails are unique, the answer to the email query is determined, so `rows[0]` names the only row with that email |
| Access.Resolve | index.js:315-326 | an input with `@` resolves to a row with that email, or to nobody when no row has it; any other non-empty input is taken as the id itself; the empty input resolves to nobody |
| Access.BanId | index.js:328-337 | a user not in the guild, or a guild without `banned`, changes nothing; otherwise the ban succeeds, the user's roles become exactly `{banned}`, an existing row gets `banned = true`, no row is created and other users are untouched |
| Access.UnbanId | index.js:367-374 | a user not in the guild changes nothing; otherwise the unban succeeds, the roles become exactly `{member}` (empty if the guild lacks it), an existing row gets `banned = false`, no row is created and other users are untouched |
| Access.Ban | index.js:313-349 | "user not found" exactly for an email no row holds or an empty input; every failure leaves the state unchanged; once the input resolves to an id, the result is exactly `Access.BanId` on that id |
| Access.Unban | index.js:352-377 | the same resolution and failure behaviour as ban; once the input resolves to an id, the result is exactly `Access.UnbanId` on that id |
| Properties.CodeTextIsTrimmed | index.js:287 | the code's own decimal string survives `trim`, so sending it passes the check |
| Properties.FreshVerification | index.js:148-308 | button, unused university email, then the mailed code: the member ends with row `(email, false)`, no attempt, `member` held and `Activation required` gone |
| Properties.WrongCodesChangeNothing | index.js:286-288 | any number of wrong codes leaves the whole state unchanged, so retries are unlimited |
| Properties.BanSurvivesVerification | index.js:295-304 | a banned member who verifies again keeps `banned = true` and the `banned` role, and gains `member` |
| Properties.LookupAfterActivation | index.js:295-298 | after a first successful code, the lookup form returns the verified email |
| Properties.ActivationTakesEmail | index.js:249-298 | after a member's first successful code inserts their row, their email is in use, so the email step turns it away |
| Properties.IdHasNoAt | index.js:317 | a Discord id never contains `@`, so the ban and unban forms take it as an id |
| Properties.EmailResolvesLikeId | index.js:317-323 | ban or unban by a row's email gives the same state and reply as by that row's id |
| Properties.BanIdempotent | index.js:336-337 | banning twice gives the same state and reply as banning once |
| Properties.UnbanIdempotent | index.js:373-374 | unbanning twice gives the same state and reply as unbanning once |
| Properties.UnbanAbsorbsBan | index.js:373-374 | an unban after a ban gives the same result as the unban alone |
| Properties.BanAbsorbsUnban | index.js:332-337 | in a guild that defines `banned`, a ban after an unban gives the same result as the ban alone |
| Properties.LastActionWins | index.js:313-377 | after any series of bans and unbans of one id, a final unban (or, with a `banned` role, a final ban) has the same result as that action alone |
| Properties.BanThenUnban | index.js:371-374 | after any series of bans and unbans, an unban leaves a guild member with exactly `{member}` (empty if the guild lacks it) and an existing row with `banned = false` |
| Events.CodeStepKeepsRolesDefined | index.js:300-304 | a successful code hands out only roles the guild defines |
| Events.JoinKeepsRolesDefined | index.js:71-90 | joining hands out only roles the guild defines |
| Events.ApplyKeeps | index.js:67-377 | no single event deletes a row, changes a row's email, changes the role catalogue, removes a guild member, or hands out an undefined role |
| Events.RunKeepsRecords | index.js:295-298 | no run of events ever deletes a row or changes its email; only `banned` changes |
| Events.RunKeepsRolesDefined | index.js:71-90 | along any run, members hold only roles the guild defines |
| Uniqueness.DuplicateEmailAsWritten | index.js:249-298 | two guild members with no row who send the same unused email and then their codes both get a row with that email |
| Uniqueness.CodeStepRechecked | index.js:286-306 | the corrected code step: a correct code whose email another row took meanwhile sends the attempt back to the email step; otherwise it acts as the original step; the emails in the table stay unique |
| Uniqueness.MessageRechecked | index.js:236-310 | the corrected handler ignores the same messages as the original and gives exactly the original's result, except where the original would activate a correct code whose email another row holds: there it replies "email in use", changes only that user's attempt and sends it back to the email step; it keeps emails in the table unique |
| Uniqueness.ApplyRecheckedKeepsUnique | index.js:67-377 | in the corrected system every event keeps emails unique |
| Uniqueness.RunRecheckedKeepsUnique | index.js:249-298 | in the corrected system no run creates two rows with the same email |

## Left out

- Discord client construction, intents and login (index.js:19-27, 380-385): platform plumbing.
- Posting the panels and showing the forms (index.js:98-142, 169-185, 204-220): these only build the user interface.
- The mail transport, its SMTP self-test and the mail body (index.js:39-59, 263-268): network I/O. Only the success bit is kept.
- The MySQL pool and the SQL text (index.js:30-33): the table is an abstract map.
- `config.js` and `database.js`: environment wiring. `index.js` does not use the connection they create.
- `Math.random` (index.js:257): floating point. The code is an input in 100000..999999.
- Asynchronous interleaving inside one handler, and the try/catch logging: each handler is atomic.
- The best-effort DM after a ban (index.js:339-346): its failure is swallowed and changes no state.
- Exact reply texts: these become enum values.
- Members leaving the guild: no handler in `index.js` reacts to that. `present` is part of the arbitrary start state and only grows through joins.

## Findings

| source | as written | input that shows it | evidently intended | confidence | as-written member | corrected member |
|---|---|---|---|---|---|---|
| index.js:249-298 | the email is checked against the table only at the email step; the row is inserted at the code step without checking again | users U1 and U2 are both in the guild with no row; both send the same unused `x@students.ptuk.edu.ps`, then both send their codes; two rows share the email | no two rows share an email: the in-use check should also guard the insert | medium, not executed; relies on the assumption that `email` is not a unique key | Uniqueness.DuplicateEmailAsWritten | Uniqueness.CodeStepRechecked |

The rest of the model keeps the code step as written, because it models `index.js` faithfully. The corrected system is `Uniqueness.ApplyRechecked` and `Uniqueness.RunRechecked`. It differs only in using `Uniqueness.CodeStepRechecked` for direct messages, and `Uniqueness.RunRecheckedKeepsUnique` proves email uniqueness for it.

=== FILE: access.dfy ===
/** Access synchronisation: the role assigned when a member joins, and the
    administrators' ban and unban forms. */
module Access {
  import opened Wrappers
  import opened Model

  datatype JoinKind = JoinedBanned | JoinedMember | JoinedNew

  datatype AdminReply = UserNotFound | MemberNotInGuild | NoBannedRole | BanApplied | Unbanned

  /** The `guildMemberAdd` handler. The member is now in the guild; the role
      comes from their row: `banned` alone for a banned row, `member` alone
      for any other row, and `Activation required` added to their roles when
      there is no row. A role the guild does not define is skipped. */
  function Join(s: State, u: UserId): (r: (State, JoinKind))
    ensures r.0.present == s.present + {u}
    ensures r.0.attempts == s.attempts && r.0.records == s.records && r.0.defined == s.defined
    ensures forall v :: v != u ==> RolesOf(r.0, v) == RolesOf(s, v)
    ensures r.1 == JoinedBanned <==> u in s.records && s.records[u].banned
    ensures r.1 == JoinedMember <==> u in s.records && !s.records[u].banned
    ensures r.1 == JoinedBanned ==> RolesOf(r.0, u) == if Banned in s.defined then {Banned} else RolesOf(s, u)
    ensures r.1 == JoinedMember ==> RolesOf(r.0, u) == if Member in s.defined then {Member} else RolesOf(s, u)
    ensures r.1 == JoinedNew ==>
      RolesOf(r.0, u) == if Activation in s.defined then RolesOf(s, u) + {Activation} else RolesOf(s, u)
  {
    var t := s.(present := s.present + {u});
    if u in s.records && s.records[u].banned then
      (if Banned in s.defined then t.(roles := s.roles[u := {Banned}]) else t, JoinedBanned)
    else if u in s.records then
      (if Member in s.defined then t.(roles := s.roles[u := {Member}]) else t, JoinedMember)
    else
      (if Activation in s.defined then t.(roles := s.roles[u := RolesOf(s, u) + {Activation}]) else t,
       JoinedNew)
  }

  /** `hit` is a possible answer of `SELECT discord_id FROM verified_users
      WHERE email = ?` for an input containing `@`: the id of some row with
      that email, or nothing when no row has it. For any other input the
      table is not asked and `hit` plays no part. */
  predicate LookupAnswers(records: map<UserId, Record>, input: string, hit: Option<UserId>)
    ensures '@' !in input ==> LookupAnswers(records, input, hit)
    ensures '@' in input && LookupAnswers(records, input, hit) ==> (hit.Some? <==> EmailTaken(records, input))
    ensures '@' in input && hit.Some? && LookupAnswers(records, input, hit) ==> hit.value in RowsWithEmail(records, input)
  {
    '@' in input ==>
      match hit
      case None => !EmailTaken(records, input)
      case Some(v) => v in records && records[v].email == input
  }

  /** The query always has an answer, so no form input is turned away. */
  lemma LookupHasAnswer(records: map<UserId, Record>, input: string)
    ensures exists hit :: LookupAnswers(records, input, hit)
  {
    if '@' in input && EmailTaken(records, input) {
      var v :| v in records && records[v].email == input;
      assert LookupAnswers(records, input, Some(v));
    } else {
      assert LookupAnswers(records, input, None);
    }
  }

  /** While emails are unique the query has one answer, so `rows[0]` names
      the only row with that email. */
  lemma LookupAnswerUnique(records: map<UserId, Record>, input: string, h1: Option<UserId>, h2: Option<UserId>)
    requires EmailsUnique(records)
    requires LookupAnswers(records, input, h1) && LookupAnswers(records, input, h2)
    ensures '@' in input ==> h1 == h2
  {
  }

  /** Who the ban and unban forms act on: the row found by email when the
      input contains `@`, else the input itself taken as an id. A missing
      row or an empty id means nobody. */
  function Resolve(records: map<UserId, Record>, input: string, hit: Option<UserId>): (r: Option<string>)
    requires LookupAnswers(records, input, hit)
    ensures '@' in input ==> (r.Some? <==> EmailTaken(records, input))
    ensures '@' in input && r.Some? ==> r.value in records && records[r.value].email == input
    ensures '@' !in input ==> (r.Some? <==> input != [])
    ensures '@' !in input && r.Some? ==> r.value == input
  {
    if '@' in input then
      match hit
      case None => None
      case Some(v) => Some(v)
    else if input == [] then None
    else Some(input)
  }

  /** Ban of a resolved id: it must be a guild member and the guild must
      define `banned`; then `banned` becomes the member's only role and an
      existing row is flagged. No row is created. */
  function BanId(s: State, id: string): (r: (State, AdminReply))
    ensures r.1 == MemberNotInGuild <==> id !in s.present
    ensures r.1 == NoBannedRole <==> id in s.present && Banned !in s.defined
    ensures r.1 == BanApplied <==> id in s.present && Banned in s.defined
    ensures r.1 != BanApplied ==> r.0 == s
    ensures r.1 == BanApplied ==>
      && (exists u :: u in s.present && u == id && RolesOf(r.0, u) == {Banned}
                      && (forall v :: v != u ==> RolesOf(r.0, v) == RolesOf(s, v))
                      && (u in s.records ==> u in r.0.records && r.0.records[u] == Record(s.records[u].email, true))
                      && AgreeExcept(s.records, r.0.records, u))
      && r.0.records.Keys == s.records.Keys
      && r.0.attempts == s.attempts && r.0.present == s.present && r.0.defined == s.defined
  {
    if id !in s.present then (s, MemberNotInGuild)
    else if Banned !in s.defined then (s, NoBannedRole)
    else
      var u: UserId := id;
      (s.(roles := s.roles[u := {Banned}], records := SetBanned(s.records, u, true)), BanApplied)
  }

  /** Unban of a resolved id: it must be a guild member; then its roles
      become just `member` (none if the guild has no such role) and an
      existing row is unflagged. No row is created and no DM is sent. */
  function UnbanId(s: State, id: string): (r: (State, AdminReply))
    ensures r.1 == MemberNotInGuild <==> id !in s.present
    ensures r.1 == Unbanned <==> id in s.present
    ensures r.1 != Unbanned ==> r.0 == s
    ensures r.1 == Unbanned ==>
      && (exists u :: u in s.present && u == id
                      && RolesOf(r.0, u) == (if Member in s.defined then {Member} else {})
                      && (forall v :: v != u ==> RolesOf(r.0, v) == RolesOf(s, v))
                      && (u in s.records ==> u in r.0.records && r.0.records[u] == Record(s.records[u].email, false))
                      && AgreeExcept(s.records, r.0.records, u))
      && r.0.records.Keys == s.records.Keys
      && r.0.attempts == s.attempts && r.0.present == s.present && r.0.defined == s.defined
  {
    if id !in s.present then (s, MemberNotInGuild)
    else
      var u: UserId := id;
      (s.(roles := s.roles[u := if Member in s.defined then {Member} else {}],
          records := SetBanned(s.records, u, false)), Unbanned)
  }

  /** The `ban_modal` form. */
  function Ban(s: State, input: string, hit: Option<UserId>): (r: (State, AdminReply))
    requires LookupAnswers(s.records, input, hit)
    ensures r.1 == UserNotFound <==> ('@' in input && !EmailTaken(s.records, input)) || input == []
    ensures r.1 != BanApplied ==> r.0 == s
    ensures r.1 == BanApplied ==> r.0.records.Keys == s.records.Keys && r.0.attempts == s.attempts
    ensures Resolve(s.records, input, hit).Some? ==> r == BanId(s, Resolve(s.records, input, hit).value)
  {
    match Resolve(s.records, input, hit)
    case None => (s, UserNotFound)
    case Some(id) => BanId(s, id)
  }

  /** The `unban_modal` form. */
  function Unban(s: State, input: string, hit: Option<UserId>): (r: (State, AdminReply))
    requires LookupAnswers(s.records, input, hit)
    ensures r.1 == UserNotFound <==> ('@' in input && !EmailTaken(s.records, input)) || input == []
    ensures r.1 != Unbanned ==> r.0 == s
    ensures r.1 == Unbanned ==> r.0.records.Keys == s.records.Keys && r.0.attempts == s.attempts
    ensures Resolve(s.records, input, hit).Some? ==> r == UnbanId(s, Resolve(s.records, input, hit).value)
  {
    match Resolve(s.records, input, hit)
    case None => (s, UserNotFound)
    case Some(id) => UnbanId(s, id)
  }
}

=== FILE: events.dfy ===
/** Every handler as one event type, and runs of events from any state:
    the guarantees that hold however the handlers are interleaved. */
module Events {
  import Text
  import opened Wrappers
  import opened Model
  import opened Verification
  import opened Access

  datatype Event =
    | Click(u: UserId, dmOk: bool)
    | Dm(author: UserId, fromBot: bool, inGuild: bool, content: string, code: Code, mailOk: bool)
    | Joined(u: UserId)
    | BanForm(input: string, hit: Option<UserId>)
    | UnbanForm(input: string, hit: Option<UserId>)
    | LookupForm(input: string)

  /** The email lookup inside a ban or unban form answers truthfully. */
  predicate Admissible(s: State, e: Event) {
    match e
    case BanForm(input, hit) => LookupAnswers(s.records, input, hit)
    case UnbanForm(input, hit) => LookupAnswers(s.records, input, hit)
    case _ => true
  }

  /** The state after one event. */
  function Apply(s: State, e: Event): State
    requires Admissible(s, e)
  {
    match e
    case Click(u, dmOk) => Start(s, u, dmOk).0
    case Dm(a, bot, guild, content, code, mailOk) => Message(s, a, bot, guild, content, code, mailOk).0
    case Joined(u) => Join(s, u).0
    case BanForm(input, hit) => Ban(s, input, hit).0
    case UnbanForm(input, hit) => Unban(s, input, hit).0
    case LookupForm(_) => s
  }

  /** A successful code hands out no role outside the guild's catalogue. */
  lemma CodeStepKeepsRolesDefined(s: State, u: UserId, text: string)
    requires u in s.attempts && s.attempts[u].AwaitingCode? && RolesDefined(s)
    ensures RolesDefined(CodeStep(s, u, text).0)
  {
    var r := CodeStep(s, u, text);
    if r.1 == Activated {
      var before, after := RolesOf(s, u), RolesOf(r.0, u);
      assert before <= s.defined;
      forall x | x in after
        ensures x in s.defined
      {
        if x != Activation && x != Member {
          assert x in before;
        }
      }
      forall v | v in r.0.roles
        ensures r.0.roles[v] <= r.0.defined
      {
        if v != u {
          assert RolesOf(r.0, v) == RolesOf(s, v);
        }
      }
    }
  }

  /** Join hands out no role outside the guild's catalogue. */
  lemma JoinKeepsRolesDefined(s: State, u: UserId)
    ensures RolesDefined(s) ==> RolesDefined(Join(s, u).0)
  {
    var t := Join(s, u).0;
    forall v | RolesDefined(s) && v in t.roles
      ensures t.roles[v] <= t.defined
    {
      assert RolesOf(t, v) == t.roles[v];
      if v != u {
        assert RolesOf(t, v) == RolesOf(s, v);
      }
    }
  }

  /** `t` keeps every row of `s` with its email, the role catalogue and
      every guild member, and hands out no role outside the catalogue. */
  ghost predicate Keeps(s: State, t: State) {
    && RecordsKept(s.records, t.records)
    && t.defined == s.defined && s.present <= t.present
    && (RolesDefined(s) ==> RolesDefined(t))
  }

  lemma EmailStepKeeps(s: State, u: UserId, email: string, code: Code, mailOk: bool)
    requires u in s.attempts && s.attempts[u] == AwaitingEmail
    ensures Keeps(s, EmailStep(s, u, email, code, mailOk).0)
  {
  }

  lemma CodeStepKeeps(s: State, u: UserId, text: string)
    requires u in s.attempts && s.attempts[u].AwaitingCode?
    ensures Keeps(s, CodeStep(s, u, text).0)
  {
    if RolesDefined(s) {
      CodeStepKeepsRolesDefined(s, u, text);
    }
  }

  lemma MessageKeeps(s: State, a: UserId, bot: bool, guild: bool, content: string, code: Code, mailOk: bool)
    ensures Keeps(s, Message(s, a, bot, guild, content, code, mailOk).0)
  {
    if !bot && !guild && a in s.attempts {
      var text := Text.Trim(content);
      match s.attempts[a]
      case AwaitingEmail => EmailStepKeeps(s, a, text, code, mailOk);
      case AwaitingCode(_, _) => CodeStepKeeps(s, a, text);
    }
  }

  lemma BanKeeps(s: State, input: string, hit: Option<UserId>)
    requires LookupAnswers(s.records, input, hit)
    ensures Keeps(s, Ban(s, input, hit).0)
  {
    var r := Ban(s, input, hit);
    if r.1 == BanApplied {
      var id := Resolve(s.records, input, hit).value;
      assert r == BanId(s, id);
    }
  }

  lemma UnbanKeeps(s: State, input: string, hit: Option<UserId>)
    requires LookupAnswers(s.records, input, hit)
    ensures Keeps(s, Unban(s, input, hit).0)
  {
    var r := Unban(s, input, hit);
    if r.1 == Unbanned {
      var id := Resolve(s.records, input, hit).value;
      assert r == UnbanId(s, id);
    }
  }

  /** One event deletes no row and changes no row's email, keeps the role
      catalogue, lets nobody leave the guild, and hands out only roles the
      guild defines. */
  lemma ApplyKeeps(s: State, e: Event)
    requires Admissible(s, e)
    ensures Keeps(s, Apply(s, e))
  {
    match e
    case Click(u, dmOk) =>
    case Dm(a, bot, guild, content, code, mailOk) =>
      MessageKeeps(s, a, bot, guild, content, code, mailOk);
    case Joined(u) =>
      JoinKeepsRolesDefined(s, u);
    case BanForm(input, hit) =>
      BanKeeps(s, input, hit);
    case UnbanForm(input, hit) =>
      UnbanKeeps(s, input, hit);
    case LookupForm(_) =>
  }

  /** Every event of the run is admissible in the state it meets. */
  predicate AdmissibleRun(s: State, evs: seq<Event>)
    decreases |evs|
  {
    evs == [] || (Admissible(s, evs[0]) && AdmissibleRun(Apply(s, evs[0]), evs[1..]))
  }

  function Run(s: State, evs: seq<Event>): State
    requires AdmissibleRun(s, evs)
    decreases |evs|
  {
    if evs == [] then s else Run(Apply(s, evs[0]), evs[1..])
  }

  /** No run deletes a row of `verified_users` or changes its email. */
  lemma {:induction false} RunKeepsRecords(s: State, evs: seq<Event>)
    requires AdmissibleRun(s, evs)
    ensures RecordsKept(s.records, Run(s, evs).records)
    decreases |evs|
  {
    if evs != [] {
      ApplyKeeps(s, evs[0]);
      RunKeepsRecords(Apply(s, evs[0]), evs[1..]);
    }
  }

  /** Along any run, members hold only roles the guild defines. */
  lemma {:induction false} RunKeepsRolesDefined(s: State, evs: seq<Event>)
    requires AdmissibleRun(s, evs) && RolesDefined(s)
    ensures RolesDefined(Run(s, evs))
    decreases |evs|
  {
    if evs != [] {
      ApplyKeeps(s, evs[0]);
      RunKeepsRolesDefined(Apply(s, evs[0]), evs[1..]);
    }
  }
}

=== FILE: model.dfy ===
/** The state the bot's handlers read and write, seen as one value:
    the in-memory map of verification attempts, the `verified_users` table,
    each guild member's role set, the set of guild members, and the roles
    the guild defines. */
module Model {

  /** A Discord user id (a snowflake): a non-empty string of decimal digits. */
  predicate IsSnowflake(s: string) {
    |s| > 0 && forall i :: 0 <= i < |s| ==> '0' <= s[i] <= '9'
  }

  type UserId = s: string | IsSnowflake(s) witness "0"

  type Email = string

  /** A code produced by `Math.floor(100000 + Math.random() * 900000)`. */
  type Code = c: int | 100000 <= c <= 999999 witness 100000

  /** The roles the handlers look up by name: `banned`,
      `Activation required` and `member`; every other role is `Other`. */
  datatype Role = Banned | Activation | Member | Other(name: string)

  /** One entry of the in-memory `verificationCodes` map. */
  datatype Attempt = AwaitingEmail | AwaitingCode(code: Code, email: Email)

  /** One row of `verified_users`, keyed by `discord_id`. */
  datatype Record = Record(email: Email, banned: bool)

  datatype State = State(
    attempts: map<UserId, Attempt>,
    records: map<UserId, Record>,
    roles: map<UserId, set<Role>>,
    present: set<UserId>,
    defined: set<Role>)

  /** The roles a user holds; a user without an entry holds none. */
  function RolesOf(s: State, u: UserId): set<Role> {
    if u in s.roles then s.roles[u] else {}
  }

  /** `SELECT ... FROM verified_users WHERE email = ?` returns a row. */
  predicate EmailTaken(records: map<UserId, Record>, e: Email)
    ensures EmailTaken(records, e) <==> RowsWithEmail(records, e) != {}
  {
    var b := exists v :: v in records && records[v].email == e;
    assert b ==> (var v :| v in records && records[v].email == e; v in RowsWithEmail(records, e));
    b
  }

  /** The rows `SELECT ... FROM verified_users WHERE email = e` returns. */
  function RowsWithEmail(records: map<UserId, Record>, e: Email): set<UserId> {
    set v | v in records && records[v].email == e
  }

  /** `UPDATE verified_users SET banned = ? WHERE discord_id = ?`: changes the
      flag of an existing row and creates nothing. */
  function SetBanned(records: map<UserId, Record>, u: UserId, b: bool): (r: map<UserId, Record>)
    ensures r.Keys == records.Keys
    ensures u in records ==> r[u] == Record(records[u].email, b)
    ensures forall v :: v in records && v != u ==> r[v] == records[v]
  {
    if u in records then records[u := records[u].(banned := b)] else records
  }

  /** Only the last of two flag updates of the same row is visible. */
  lemma SetBannedTwice(records: map<UserId, Record>, u: UserId, a: bool, b: bool)
    ensures SetBanned(SetBanned(records, u, a), u, b) == SetBanned(records, u, b)
  {
    var r := SetBanned(SetBanned(records, u, a), u, b);
    assert r.Keys == SetBanned(records, u, b).Keys;
  }

  /** Flag updates neither take nor free an email: the in-use query gives
      the same answer before and after a ban or unban. */
  lemma SetBannedKeepsTaken(records: map<UserId, Record>, u: UserId, b: bool, e: Email)
    ensures EmailTaken(SetBanned(records, u, b), e) == EmailTaken(records, e)
  {
    var t := SetBanned(records, u, b);
    if EmailTaken(records, e) {
      var v :| v in records && records[v].email == e;
      assert t[v].email == e;
    }
    if EmailTaken(t, e) {
      var v :| v in t && t[v].email == e;
      assert records[v].email == e;
    }
  }

  /** `m` and `n` agree on every key other than `u`. */
  ghost predicate AgreeExcept<V>(m: map<UserId, V>, n: map<UserId, V>, u: UserId) {
    forall v :: v != u ==> (v in m <==> v in n) && (v in m ==> m[v] == n[v])
  }

  /** Every role a member holds is one the guild defines. */
  ghost predicate RolesDefined(s: State) {
    forall u :: u in s.roles ==> s.roles[u] <= s.defined
  }

  /** No two rows of `verified_users` share an email. */
  ghost predicate EmailsUnique(records: map<UserId, Record>) {
    forall v, w :: v in records && w in records && v != w ==> records[v].email != records[w].email
  }

  /** Every row of `before` is still a row of `after` with the same email. */
  ghost predicate RecordsKept(before: map<UserId, Record>, after: map<UserId, Record>) {
    forall v :: v in before ==> v in after && after[v].email == before[v].email
  }
}

=== FILE: properties.dfy ===
/** Properties that relate several handler calls: the full verification
    path, unlimited code retries, ban/unban resolution and convergence. */
module Properties {
  import opened Text
  import opened Wrappers
  import opened Model
  import opened Verification
  import opened Access

  /** A code's decimal string has no surrounding white space, so sending
      exactly that string passes the code check. */
  lemma CodeTextIsTrimmed(c: Code)
    ensures Trim(Decimal(c)) == Decimal(c)
  {
    var d := Decimal(c);
    assert '0' <= d[0] <= '9' && '0' <= d[|d| - 1] <= '9';
    TrimOfTrimmed(d);
  }

  /** From no attempt and no row: pressing the button, sending an unused
      university email and then the mailed code leaves the member with a
      row `(email, banned = false)`, no attempt, `member` held and
      `Activation required` dropped (when the guild defines them). */
  lemma FreshVerification(s: State, u: UserId, content: string, c: Code)
    requires u in s.present && u !in s.records
    requires EndsWith(Trim(content), Domain) && !EmailTaken(s.records, Trim(content))
    ensures var s1 := Start(s, u, true).0;
            var s2 := Message(s1, u, false, false, content, c, true).0;
            var r := Message(s2, u, false, false, Decimal(c), c, true);
            && r.1 == Activated
            && u in r.0.records && r.0.records[u] == Record(Trim(content), false)
            && u !in r.0.attempts
            && (Member in s.defined ==> Member in RolesOf(r.0, u))
            && (Activation in s.defined ==> Activation !in RolesOf(r.0, u))
  {
    var s1 := Start(s, u, true).0;
    var s2 := Message(s1, u, false, false, content, c, true).0;
    assert s2.attempts[u] == AwaitingCode(c, Trim(content));
    CodeTextIsTrimmed(c);
  }

  /** Sends each text of `texts` as a direct message from `u`. */
  function SendAll(s: State, u: UserId, texts: seq<string>, code: Code, mailOk: bool): State
    decreases |texts|
  {
    if texts == [] then s
    else SendAll(Message(s, u, false, false, texts[0], code, mailOk).0, u, texts[1..], code, mailOk)
  }

  /** Any number of wrong codes leaves everything as it was: no lockout,
      the attempt still waits for the same code. */
  lemma {:induction false} WrongCodesChangeNothing(s: State, u: UserId, texts: seq<string>, code: Code, mailOk: bool)
    requires u in s.attempts && s.attempts[u].AwaitingCode?
    requires forall i :: 0 <= i < |texts| ==> Trim(texts[i]) != Decimal(s.attempts[u].code)
    ensures SendAll(s, u, texts, code, mailOk) == s
    decreases |texts|
  {
    if texts != [] {
      assert Message(s, u, false, false, texts[0], code, mailOk).0 == s;
      WrongCodesChangeNothing(s, u, texts[1..], code, mailOk);
    }
  }

  /** A banned member who passes verification again (with an email no row
      holds) keeps `banned` on their row and in their roles, and gains
      `member` beside it. */
  lemma BanSurvivesVerification(s: State, u: UserId, text: string)
    requires u in s.present && u in s.records && s.records[u].banned
    requires RolesOf(s, u) == {Banned} && Member in s.defined
    requires u in s.attempts && s.attempts[u].AwaitingCode? && text == Decimal(s.attempts[u].code)
    ensures var r := CodeStep(s, u, text);
            r.1 == Activated && r.0.records[u].banned && RolesOf(r.0, u) == {Banned, Member}
  {
    var r := CodeStep(s, u, text);
    assert Member in RolesOf(r.0, u);
  }

  /** After a member's first successful code, the email lookup form shows
      the email they verified. */
  lemma LookupAfterActivation(s: State, u: UserId, text: string)
    requires u in s.attempts && s.attempts[u].AwaitingCode? && u !in s.records
    requires CodeStep(s, u, text).1 == Activated
    ensures LookupEmail(CodeStep(s, u, text).0, u) == Linked(s.attempts[u].email)
  {
  }

  /** After a member's first successful code, the email they verified is
      in use: the email step now turns it away for everyone. */
  lemma ActivationTakesEmail(s: State, u: UserId, text: string)
    requires u in s.attempts && s.attempts[u].AwaitingCode? && u !in s.records
    requires CodeStep(s, u, text).1 == Activated
    ensures EmailTaken(CodeStep(s, u, text).0.records, s.attempts[u].email)
  {
    var t := CodeStep(s, u, text).0;
    assert u in t.records && t.records[u].email == s.attempts[u].email;
  }

  /** A snowflake never contains `@`, so an id typed into the ban or unban
      form is always taken as an id. */
  lemma IdHasNoAt(u: UserId)
    ensures '@' !in u
  {
    assert forall i :: 0 <= i < |u| ==> u[i] != '@';
  }

  /** Banning or unbanning by a row's email acts exactly as doing it by that
      row's id. */
  lemma EmailResolvesLikeId(s: State, email: string, u: UserId)
    requires '@' in email && u in s.records && s.records[u].email == email
    ensures LookupAnswers(s.records, u, None)
    ensures Ban(s, email, Some(u)) == Ban(s, u, None)
    ensures Unban(s, email, Some(u)) == Unban(s, u, None)
  {
    IdHasNoAt(u);
  }

  /** Banning twice is banning once. */
  lemma BanIdempotent(s: State, id: string)
    ensures BanId(BanId(s, id).0, id) == BanId(s, id)
  {
    var b := BanId(s, id);
    if b.1 == BanApplied {
      var u: UserId := id;
      SetBannedTwice(s.records, u, true, true);
      assert b.0.roles[u := {Banned}] == b.0.roles;
    }
  }

  /** Unbanning twice is unbanning once. */
  lemma UnbanIdempotent(s: State, id: string)
    ensures UnbanId(UnbanId(s, id).0, id) == UnbanId(s, id)
  {
    var b := UnbanId(s, id);
    if b.1 == Unbanned {
      var u: UserId := id;
      SetBannedTwice(s.records, u, false, false);
      assert b.0.roles[u := b.0.roles[u]] == b.0.roles;
    }
  }

  /** An unban erases the effect of any earlier ban of the same id. */
  lemma UnbanAbsorbsBan(s: State, id: string)
    ensures UnbanId(BanId(s, id).0, id) == UnbanId(s, id)
  {
    var b := BanId(s, id);
    if b.1 == BanApplied {
      var u: UserId := id;
      SetBannedTwice(s.records, u, true, false);
      var m := if Member in s.defined then {Member} else {};
      assert b.0.roles[u := m] == s.roles[u := m];
    }
  }

  /** In a guild that defines `banned`, a ban erases the effect of any
      earlier unban of the same id. */
  lemma BanAbsorbsUnban(s: State, id: string)
    requires Banned in s.defined
    ensures BanId(UnbanId(s, id).0, id) == BanId(s, id)
  {
    var b := UnbanId(s, id);
    if b.1 == Unbanned {
      var u: UserId := id;
      SetBannedTwice(s.records, u, false, true);
      assert b.0.roles[u := {Banned}] == s.roles[u := {Banned}];
    }
  }

  /** Applies a series of bans (`true`) and unbans (`false`) to one id. */
  function AdminRun(s: State, id: string, bans: seq<bool>): State
    decreases |bans|
  {
    if bans == [] then s
    else AdminRun(if bans[0] then BanId(s, id).0 else UnbanId(s, id).0, id, bans[1..])
  }

  /** Whatever bans and unbans came before, a final unban leaves the same
      state as an unban alone and, in a guild that defines `banned`, a
      final ban the same as a ban alone. */
  lemma {:induction false} LastActionWins(s: State, id: string, bans: seq<bool>)
    ensures UnbanId(AdminRun(s, id, bans), id) == UnbanId(s, id)
    ensures Banned in s.defined ==> BanId(AdminRun(s, id, bans), id) == BanId(s, id)
    decreases |bans|
  {
    if bans != [] {
      var s' := if bans[0] then BanId(s, id).0 else UnbanId(s, id).0;
      LastActionWins(s', id, bans[1..]);
      if bans[0] {
        UnbanAbsorbsBan(s, id);
        BanIdempotent(s, id);
      } else {
        UnbanIdempotent(s, id);
        if Banned in s.defined {
          BanAbsorbsUnban(s, id);
        }
      }
    }
  }

  /** Ban then unban of a guild member: `member` is their only role (no
      role when the guild lacks it) and an existing row is not banned. */
  lemma BanThenUnban(s: State, u: UserId, bans: seq<bool>)
    requires u in s.present
    ensures var t := UnbanId(AdminRun(s, u, bans), u).0;
            && RolesOf(t, u) == (if Member in s.defined then {Member} else {})
            && (u in s.records ==> u in t.records && !t.records[u].banned)
  {
    LastActionWins(s, u, bans);
  }
}

=== FILE: text.dfy ===
/** String helpers the bot relies on from JavaScript: `String.prototype.trim`,
    `String.prototype.endsWith`, and `Number.prototype.toString` on a
    non-negative integer. */
module Text {

  /** ECMAScript WhiteSpace and LineTerminator code points: the characters
      `trim` removes from both ends of a string. */
  predicate IsJsSpace(c: char)
    ensures IsJsSpace(c) ==> !('0' <= c <= '9') && !('a' <= c <= 'z') && !('A' <= c <= 'Z')
    ensures IsJsSpace(c) ==> c != '@' && c != '.'
  {
    var n := c as int;
    || n == 0x09 || n == 0x0A || n == 0x0B || n == 0x0C || n == 0x0D
    || n == 0x20 || n == 0xA0 || n == 0x1680
    || (0x2000 <= n <= 0x200A)
    || n == 0x2028 || n == 0x2029 || n == 0x202F || n == 0x205F
    || n == 0x3000 || n == 0xFEFF
  }

  /** The index of the first character at or after `i` that is not white
      space (`|s|` if there is none). */
  function SkipSpace(s: string, i: nat): (k: nat)
    requires i <= |s|
    ensures i <= k <= |s|
    ensures forall j :: i <= j < k ==> IsJsSpace(s[j])
    ensures k == |s| || !IsJsSpace(s[k])
    decreases |s| - i
  {
    if i < |s| && IsJsSpace(s[i]) then SkipSpace(s, i + 1) else i
  }

  /** The index just past the last character before `j`, and not before
      `lo`, that is not white space (`lo` if there is none). */
  function SkipSpaceBack(s: string, lo: nat, j: nat): (k: nat)
    requires lo <= j <= |s|
    ensures lo <= k <= j
    ensures forall m :: k <= m < j ==> IsJsSpace(s[m])
    ensures k == lo || !IsJsSpace(s[k - 1])
    decreases j
  {
    if j > lo && IsJsSpace(s[j - 1]) then SkipSpaceBack(s, lo, j - 1) else j
  }

  /** Every character of `p` is white space. */
  predicate AllSpace(p: string) {
    forall i :: 0 <= i < |p| ==> IsJsSpace(p[i])
  }

  /** Where the trimmed text starts in `s`. */
  function TrimFrom(s: string): nat
    ensures TrimFrom(s) <= |s|
  {
    SkipSpace(s, 0)
  }

  /** Where the trimmed text ends in `s`. */
  function TrimTo(s: string): nat
    ensures TrimFrom(s) <= TrimTo(s) <= |s|
  {
    SkipSpaceBack(s, TrimFrom(s), |s|)
  }

  /** `s.trim()`: `s` without the white space at either end. What it drops
      is white space (`SkipSpace`, `SkipSpaceBack`); what it keeps is the
      middle of `s` unchanged, and neither starts nor ends with white space. */
  function Trim(s: string): (r: string)
    ensures |r| <= |s|
    ensures TrimFrom(s) + |r| <= |s| && r == s[TrimFrom(s)..TrimFrom(s) + |r|]
    ensures AllSpace(s[..TrimFrom(s)]) && AllSpace(s[TrimFrom(s) + |r|..])
    ensures r == [] || (!IsJsSpace(r[0]) && !IsJsSpace(r[|r| - 1]))
  {
    var lo, hi := TrimFrom(s), TrimTo(s);
    var r := s[lo..hi];
    assert r != [] ==> r[0] == s[lo] && r[|r| - 1] == s[hi - 1];
    assert AllSpace(s[..lo]) && AllSpace(s[hi..]);
    r
  }

  /** `s` is white space, then its trim, then white space. */
  lemma TrimKeepsMiddle(s: string)
    ensures exists p, q :: s == p + Trim(s) + q && AllSpace(p) && AllSpace(q)
  {
    var lo, r := TrimFrom(s), Trim(s);
    assert s == s[..lo] + r + s[lo + |r|..];
  }

  /** A string already free of white space at both ends is its own trim. */
  lemma TrimOfTrimmed(s: string)
    requires s == [] || (!IsJsSpace(s[0]) && !IsJsSpace(s[|s| - 1]))
    ensures Trim(s) == s
  {
  }

  /** Trimming twice is trimming once. */
  lemma TrimIdempotent(s: string)
    ensures Trim(Trim(s)) == Trim(s)
  {
    TrimOfTrimmed(Trim(s));
  }

  /** `s.endsWith(suffix)`. */
  predicate EndsWith(s: string, suffix: string) {
    |suffix| <= |s| && s[|s| - |suffix|..] == suffix
  }

  /** `s.endsWith(suffix)` holds exactly when `s` is some prefix followed
      by `suffix`. */
  lemma EndsWithMeansSuffix(s: string, suffix: string)
    ensures EndsWith(s, suffix) <==> exists p :: s == p + suffix
  {
    if EndsWith(s, suffix) {
      var k := |s| - |suffix|;
      assert s == s[..k] + suffix;
    }
    forall p | s == p + suffix
      ensures EndsWith(s, suffix)
    {
      assert s[|p|..] == suffix;
    }
  }

  function DigitChar(d: nat): (c: char)
    requires d < 10
    ensures '0' <= c <= '9' && c as int == '0' as int + d
  {
    ['0', '1', '2', '3', '4', '5', '6', '7', '8', '9'][d]
  }

  function DigitValue(c: char): (d: nat)
    requires '0' <= c <= '9'
    ensures d < 10 && DigitChar(d) == c
  {
    (c as int) - ('0' as int)
  }

  predicate AllDigits(s: string) {
    forall i :: 0 <= i < |s| ==> '0' <= s[i] <= '9'
  }

  /** `n.toString()` for a non-negative integer: its decimal digits, most
      significant first, with no leading zero. */
  function Decimal(n: nat): (r: string)
    ensures |r| >= 1 && AllDigits(r)
    ensures r[0] == '0' ==> n == 0
    decreases n
  {
    if n < 10 then [DigitChar(n)] else Decimal(n / 10) + [DigitChar(n % 10)]
  }

  /** Reads a string of decimal digits back as a number. */
  function DigitsValue(s: string): nat
    requires AllDigits(s)
    decreases |s|
  {
    if s == [] then 0 else 10 * DigitsValue(s[..|s| - 1]) + DigitValue(s[|s| - 1])
  }

  /** Reading back the decimal string gives the number. */
  lemma {:induction false} DecimalRoundTrip(n: nat)
    ensures DigitsValue(Decimal(n)) == n
    decreases n
  {
    var r := Decimal(n);
    if n >= 10 {
      var p, d := Decimal(n / 10), n % 10;
      DecimalRoundTrip(n / 10);
      assert r == p + [DigitChar(d)];
      assert r[..|r| - 1] == p;
      assert DigitValue(r[|r| - 1]) == d;
      assert DigitsValue(r) == 10 * (n / 10) + d;
    }
  }

  /** Distinct numbers have distinct decimal strings. */
  lemma DecimalInjective(m: nat, n: nat)
    requires m != n
    ensures Decimal(m) != Decimal(n)
  {
    DecimalRoundTrip(m);
    DecimalRoundTrip(n);
  }

  /** A number in [100000, 999999] prints as exactly six digits. */
  lemma {:induction false} DecimalSixDigits(n: nat)
    requires 100000 <= n <= 999999
    ensures |Decimal(n)| == 6
  {
    var q1 := n / 10;
    var q2 := q1 / 10;
    var q3 := q2 / 10;
    var q4 := q3 / 10;
    var q5 := q4 / 10;
    assert 1 <= q5 <= 9;
    assert |Decimal(q4)| == |Decimal(q5)| + 1 == 2;
    assert |Decimal(q3)| == |Decimal(q4)| + 1;
    assert |Decimal(q2)| == |Decimal(q3)| + 1;
    assert |Decimal(q1)| == |Decimal(q2)| + 1;
    assert |Decimal(n)| == |Decimal(q1)| + 1;
  }
}

=== FILE: uniqueness.dfy ===
/** Email uniqueness across `verified_users`. The handlers test an email
    against the table only at the email step, and the row is written later,
    at the code step. Two users can pass the test with the same email before
    either confirms, and both rows are then written. The corrected code step
    repeats the test just before the insert; with it, no run ever creates two
    rows with one email. */
module Uniqueness {
  import opened Text
  import opened Model
  import opened Verification
  import Events
  import Properties

  /** Two users in the guild, neither with a row, both send the same unused
      university email and then their codes: the table ends up with two
      rows that share the email (handlers as written). */
  lemma DuplicateEmailAsWritten(s: State, u1: UserId, u2: UserId, content: string, c1: Code, c2: Code)
    requires u1 != u2 && u1 in s.present && u2 in s.present
    requires u1 !in s.records && u2 !in s.records
    requires EndsWith(Trim(content), Domain) && !EmailTaken(s.records, Trim(content))
    ensures var a := Start(Start(s, u1, true).0, u2, true).0;
            var b := Message(Message(a, u1, false, false, content, c1, true).0,
                             u2, false, false, content, c2, true).0;
            var t := Message(Message(b, u1, false, false, Decimal(c1), c1, true).0,
                             u2, false, false, Decimal(c2), c2, true).0;
            && u1 in t.records && u2 in t.records
            && t.records[u1].email == Trim(content) && t.records[u2].email == Trim(content)
            && !EmailsUnique(t.records)
  {
    var e := Trim(content);
    var a := Start(Start(s, u1, true).0, u2, true).0;
    var b1 := Message(a, u1, false, false, content, c1, true);
    assert b1.1 == CodeMailed;
    var b := Message(b1.0, u2, false, false, content, c2, true);
    assert b.1 == CodeMailed;
    assert b.0.attempts[u1] == AwaitingCode(c1, e) && b.0.attempts[u2] == AwaitingCode(c2, e);
    Properties.CodeTextIsTrimmed(c1);
    Properties.CodeTextIsTrimmed(c2);
    var t1 := Message(b.0, u1, false, false, Decimal(c1), c1, true);
    assert t1.1 == Activated;
    assert t1.0.records[u1] == Record(e, false);
    var t := Message(t1.0, u2, false, false, Decimal(c2), c2, true);
    assert t.1 == Activated;
    assert t.0.records[u1] == Record(e, false) && t.0.records[u2] == Record(e, false);
  }

  /** Some other user's row holds `e`. */
  predicate HeldByOther(records: map<UserId, Record>, u: UserId, e: Email) {
    exists v :: v in records && v != u && records[v].email == e
  }

  /** The code step with the email test repeated before the insert: if
      another user's row took the email meanwhile, the attempt goes back to
      the email step and nothing else changes. Otherwise it is `CodeStep`. */
  function CodeStepRechecked(s: State, u: UserId, text: string): (r: (State, DmReply))
    requires u in s.attempts && s.attempts[u].AwaitingCode?
    ensures r.1 == EmailInUse <==>
      text == Decimal(s.attempts[u].code) && u in s.present && HeldByOther(s.records, u, s.attempts[u].email)
    ensures r.1 == EmailInUse ==> OnlyAttemptOf(s, r.0, u) && u in r.0.attempts && r.0.attempts[u] == AwaitingEmail
    ensures r.1 != EmailInUse ==> r == CodeStep(s, u, text)
    ensures EmailsUnique(s.records) ==> EmailsUnique(r.0.records)
  {
    var a := s.attempts[u];
    if text == Decimal(a.code) && u in s.present && HeldByOther(s.records, u, a.email) then
      (s.(attempts := s.attempts[u := AwaitingEmail]), EmailInUse)
    else
      CodeStep(s, u, text)
  }

  /** The direct-message handler using the corrected code step. */
  function MessageRechecked(s: State, author: UserId, fromBot: bool, inGuild: bool, content: string,
                            code: Code, mailOk: bool): (r: (State, DmReply))
    ensures r.1 == Silent <==> fromBot || inGuild || author !in s.attempts
    ensures r.1 != EmailInUse || s.attempts[author] == AwaitingEmail ==>
      r == Message(s, author, fromBot, inGuild, content, code, mailOk)
    ensures r != Message(s, author, fromBot, inGuild, content, code, mailOk) ==>
      && r.1 == EmailInUse && s.attempts[author].AwaitingCode?
      && Message(s, author, fromBot, inGuild, content, code, mailOk).1 == Activated
      && HeldByOther(s.records, author, s.attempts[author].email)
      && OnlyAttemptOf(s, r.0, author) && author in r.0.attempts && r.0.attempts[author] == AwaitingEmail
    ensures EmailsUnique(s.records) ==> EmailsUnique(r.0.records)
  {
    if fromBot || inGuild || author !in s.attempts then (s, Silent)
    else
      match s.attempts[author]
      case AwaitingEmail => EmailStep(s, author, Trim(content), code, mailOk)
      case AwaitingCode(_, _) => CodeStepRechecked(s, author, Trim(content))
  }

  /** One event of the corrected system: messages go through the corrected
      handler, every other event as before. */
  function ApplyRechecked(s: State, e: Events.Event): State
    requires Events.Admissible(s, e)
  {
    match e
    case Dm(a, bot, guild, content, code, mailOk) => MessageRechecked(s, a, bot, guild, content, code, mailOk).0
    case _ => Events.Apply(s, e)
  }

  predicate AdmissibleRunRechecked(s: State, evs: seq<Events.Event>)
    decreases |evs|
  {
    evs == [] || (Events.Admissible(s, evs[0]) && AdmissibleRunRechecked(ApplyRechecked(s, evs[0]), evs[1..]))
  }

  function RunRechecked(s: State, evs: seq<Events.Event>): State
    requires AdmissibleRunRechecked(s, evs)
    decreases |evs|
  {
    if evs == [] then s else RunRechecked(ApplyRechecked(s, evs[0]), evs[1..])
  }

  /** Same rows, same emails (flags may differ). */
  ghost predicate SameEmails(a: map<UserId, Record>, b: map<UserId, Record>) {
    a.Keys == b.Keys && forall v :: v in a ==> b[v].email == a[v].email
  }

  lemma SameEmailsKeepUnique(a: map<UserId, Record>, b: map<UserId, Record>)
    requires SameEmails(a, b) && EmailsUnique(a)
    ensures EmailsUnique(b)
  {
  }

  /** Every event other than a message leaves the rows and their emails. */
  lemma OtherEventsKeepEmails(s: State, e: Events.Event)
    requires Events.Admissible(s, e) && !e.Dm?
    ensures SameEmails(s.records, ApplyRechecked(s, e).records)
  {
    Events.ApplyKeeps(s, e);
  }

  /** In the corrected system every event keeps emails unique. */
  lemma ApplyRecheckedKeepsUnique(s: State, e: Events.Event)
    requires Events.Admissible(s, e) && EmailsUnique(s.records)
    ensures EmailsUnique(ApplyRechecked(s, e).records)
  {
    if !e.Dm? {
      OtherEventsKeepEmails(s, e);
      SameEmailsKeepUnique(s.records, ApplyRechecked(s, e).records);
    }
  }

  /** In the corrected system no run creates two rows with one email. */
  lemma {:induction false} RunRecheckedKeepsUnique(s: State, evs: seq<Events.Event>)
    requires AdmissibleRunRechecked(s, evs) && EmailsUnique(s.records)
    ensures EmailsUnique(RunRechecked(s, evs).records)
    decreases |evs|
  {
    if evs != [] {
      ApplyRecheckedKeepsUnique(s, evs[0]);
      RunRecheckedKeepsUnique(ApplyRechecked(s, evs[0]), evs[1..]);
    }
  }
}

=== FILE: verification.dfy ===
/** The member-facing verification flow: the `verify_start` button, the two
    direct-message steps (email, then code), and the administrators' email
    lookup by id. */
module Verification {
  import opened Text
  import opened Model

  /** The only email suffix the email step accepts. */
  const Domain := "@students.ptuk.edu.ps"

  datatype StartReply = DmOpened | DmBlocked

  /** Replies of the direct-message handler; `Silent` is a message it
      returns from without answering. */
  datatype DmReply =
    | Silent
    | NotUniversityEmail | EmailInUse | CodeMailed | MailFailed
    | WrongCode | NotInGuild | Activated
  {
    predicate FromEmailStep() {
      NotUniversityEmail? || EmailInUse? || CodeMailed? || MailFailed?
    }
    predicate FromCodeStep() {
      WrongCode? || NotInGuild? || Activated?
    }
  }

  datatype LookupReply = Linked(email: Email) | NotLinked

  /** `t` differs from `s` at most in the attempt of `u`. */
  ghost predicate OnlyAttemptOf(s: State, t: State, u: UserId) {
    && t.records == s.records && t.roles == s.roles
    && t.present == s.present && t.defined == s.defined
    && AgreeExcept(s.attempts, t.attempts, u)
  }

  /** The roles after a successful code: `Activation required` removed and
      `member` added, each only if the guild defines it; all other roles
      as before. */
  ghost predicate Promoted(before: set<Role>, after: set<Role>, defined: set<Role>) {
    && (Activation in after <==> Activation in before && Activation !in defined)
    && (Member in after <==> Member in before || Member in defined)
    && forall x :: x != Activation && x != Member ==> (x in after <==> x in before)
  }

  /** The `verify_start` button: the bot tries to DM the user; only if the
      DM goes through does the user's attempt (re)start at the email step. */
  function Start(s: State, u: UserId, dmOk: bool): (r: (State, StartReply))
    ensures r.1 == DmOpened <==> dmOk
    ensures !dmOk ==> r.0 == s
    ensures dmOk ==> OnlyAttemptOf(s, r.0, u) && u in r.0.attempts && r.0.attempts[u] == AwaitingEmail
  {
    if dmOk then (s.(attempts := s.attempts[u := AwaitingEmail]), DmOpened)
    else (s, DmBlocked)
  }

  /** The email step, given the trimmed message text. `code` is the number
      the bot draws and `mailOk` whether the mail transport accepted it. */
  function EmailStep(s: State, u: UserId, email: string, code: Code, mailOk: bool): (r: (State, DmReply))
    requires u in s.attempts && s.attempts[u] == AwaitingEmail
    ensures r.1.FromEmailStep()
    ensures r.1 == NotUniversityEmail <==> !EndsWith(email, Domain)
    ensures r.1 == EmailInUse <==> EndsWith(email, Domain) && EmailTaken(s.records, email)
    ensures r.1 == NotUniversityEmail || r.1 == EmailInUse ==> r.0 == s
    ensures r.1 == CodeMailed <==> EndsWith(email, Domain) && !EmailTaken(s.records, email) && mailOk
    ensures r.1 == CodeMailed ==>
      OnlyAttemptOf(s, r.0, u) && u in r.0.attempts && r.0.attempts[u] == AwaitingCode(code, email)
    ensures r.1 == MailFailed ==> OnlyAttemptOf(s, r.0, u) && u !in r.0.attempts
  {
    if !EndsWith(email, Domain) then (s, NotUniversityEmail)
    else if EmailTaken(s.records, email) then (s, EmailInUse)
    else if mailOk then (s.(attempts := s.attempts[u := AwaitingCode(code, email)]), CodeMailed)
    else (s.(attempts := s.attempts - {u}), MailFailed)
  }

  /** The code step, given the trimmed message text. On success the row is
      inserted with `INSERT IGNORE`: an existing row for the id is kept as
      it is (this assumes `discord_id` is a unique key of the table). */
  function CodeStep(s: State, u: UserId, text: string): (r: (State, DmReply))
    requires u in s.attempts && s.attempts[u].AwaitingCode?
    ensures r.1.FromCodeStep()
    ensures r.1 == WrongCode <==> text != Decimal(s.attempts[u].code)
    ensures r.1 == NotInGuild <==> text == Decimal(s.attempts[u].code) && u !in s.present
    ensures r.1 != Activated ==> r.0 == s
    ensures r.1 == Activated ==>
      var t := r.0;
      && u !in t.attempts
      && AgreeExcept(s.attempts, t.attempts, u)
      && u in t.records
      && (u in s.records ==> t.records[u] == s.records[u])
      && (u !in s.records ==> t.records[u] == Record(s.attempts[u].email, false))
      && AgreeExcept(s.records, t.records, u)
      && Promoted(RolesOf(s, u), RolesOf(t, u), s.defined)
      && (forall v :: v != u ==> RolesOf(t, v) == RolesOf(s, v))
      && t.present == s.present && t.defined == s.defined
  {
    var a := s.attempts[u];
    if text != Decimal(a.code) then (s, WrongCode)
    else if u !in s.present then (s, NotInGuild)
    else
      var records := if u in s.records then s.records else s.records[u := Record(a.email, false)];
      var dropped := if Activation in s.defined then RolesOf(s, u) - {Activation} else RolesOf(s, u);
      var held := if Member in s.defined then dropped + {Member} else dropped;
      (s.(attempts := s.attempts - {u}, records := records, roles := s.roles[u := held]), Activated)
  }

  /** The direct-message handler. Bot authors, messages sent in a guild
      channel and users with no attempt are ignored; otherwise the
      trimmed text goes to the step the user's attempt is at. */
  function Message(s: State, author: UserId, fromBot: bool, inGuild: bool, content: string,
                   code: Code, mailOk: bool): (r: (State, DmReply))
    ensures r.1 == Silent <==> fromBot || inGuild || author !in s.attempts
    ensures r.1 == Silent ==> r.0 == s
    ensures r.1.FromEmailStep() ==> author in s.attempts && s.attempts[author] == AwaitingEmail
    ensures r.1.FromCodeStep() ==> author in s.attempts && s.attempts[author].AwaitingCode?
    ensures r.1 in {NotUniversityEmail, EmailInUse, WrongCode, NotInGuild} ==> r.0 == s
    ensures r.1 == NotUniversityEmail <==>
      !fromBot && !inGuild && author in s.attempts && s.attempts[author] == AwaitingEmail
      && !EndsWith(Trim(content), Domain)
    ensures r.1 == EmailInUse <==>
      !fromBot && !inGuild && author in s.attempts && s.attempts[author] == AwaitingEmail
      && EndsWith(Trim(content), Domain) && EmailTaken(s.records, Trim(content))
    ensures r.1 == WrongCode <==>
      !fromBot && !inGuild && author in s.attempts && s.attempts[author].AwaitingCode?
      && Trim(content) != Decimal(s.attempts[author].code)
    ensures r.1.FromEmailStep() ==> r == EmailStep(s, author, Trim(content), code, mailOk)
    ensures r.1.FromCodeStep() ==> r == CodeStep(s, author, Trim(content))
  {
    if fromBot || inGuild || author !in s.attempts then (s, Silent)
    else
      match s.attempts[author]
      case AwaitingEmail => EmailStep(s, author, Trim(content), code, mailOk)
      case AwaitingCode(_, _) => CodeStep(s, author, Trim(content))
  }

  /** The `email_lookup_modal` form: the email on the row for the typed id. */
  function LookupEmail(s: State, input: string): (r: LookupReply)
    ensures r.Linked? <==> input in s.records
    ensures r.Linked? ==> exists u :: u in s.records && u == input && s.records[u].email == r.email
  {
    if input in s.records then Linked(s.records[input].email) else NotLinked
  }
}

=== FILE: wrappers.dfy ===
/** Optional values, for answers that may be missing. */
module Wrappers {

  datatype Option<T> = None | Some(value: T)
}
